=== FILE: README.md ===
# faster-elevation, modelled in Dafny

faster-elevation is an HTTP elevation service. At start-up it can rebuild a
PostGIS index of the GeoTIFF rasters under a data directory. Each row holds
the raster's relative path, an integer resolution score and the raster's
footprint ring in WGS84. It answers POST (JSON list of points) and GET
(`locations=lat,lon|lat,lon|…`) requests. For each point it asks the index
for the highest-resolution raster containing the point and reads one pixel of
band 1. Answers are cached under the key `"{lat},{lon}"`.

This project models the service's core in Dafny:

- `text.dfy` (`Text`): `str::split` and the last piece, `str::parse::<i32>`
  and the decimal spelling of a number;
- `epsg.dfy` (`Epsg`): the EPSG code read out of a projection text, and the
  axis-order correction for EPSG:25832;
- `footprint.dfy` (`Footprint`): corners from the geotransform, the
  four-vertex ring, the resolution score, and the in-place coordinate
  transform of the corner arrays;
- `model.dfy` (`Model`): the per-point answer, its error texts, the index
  row, and the raster handle reduced to the outcome of each GDAL call;
- `lookup.dfy` (`Lookup`): the early-return ladder of one point lookup;
- `handlers.dfy` (`Handlers`): the POST batch loop and the GET parser, both
  in front of the result cache;
- `ingest.dfy` (`Ingest`): the index build with its skip-and-continue walk.

Model choices:

- GDAL, PostGIS and the pool are oracles: fields of `LookupEnv`,
  `IngestEnv` and `Dataset` that say how each external call turns out.
- Coordinates are exact `real`s.
- Rust's `f64` parsing and `{}` formatting are the parameters of a
  `FloatText`. `Faithful` states the two things the model needs of them:
  an `f64` value prints without a comma and parses back to itself, and
  whatever parses is an `f64` value.
- The cache is a `map` that the handler methods take and give back.
- A Rust panic is an explicit outcome (`Panicked`, `Abort`), never a
  precondition.

## Model

| member | source | states |
|---|---|---|
| Text.FindFrom | src/main.rs:118 | the separator position found is the leftmost occurrence at or after the start; `None` only when no occurrence follows |
| Text.Split | src/main.rs:118-122 | `split` always yields at least one piece, so the `None` arm of `last()` can never be taken |
| Text.SplitJoin | src/main.rs:118 | joining the pieces with the separator gives back the text: `split` loses nothing |
| Text.SplitPiecesHaveNoSep | src/main.rs:118 | no piece of a split contains the separator |
| Text.LastStart | src/main.rs:118-122 | the start of the last piece: no separator occurrence at or after it, and it directly follows an occurrence or is the start of the text |
| Text.LastPieceIsTail | src/main.rs:118-122 | the last piece is the text after the last separator occurrence (the whole text when there is none) and holds no separator |
| Text.SplitWithoutSep | src/main.rs:118-122 | a text without the separator splits into exactly itself |
| Text.ParseI32 | src/main.rs:123 | `parse::<i32>` succeeds only on an optional sign followed by digits, and only for values within 32 bits |
| Text.Decimal | src/main.rs:123 | the decimal spelling of a number is a non-empty run of digits whose value is the number |
| Text.ParseSignedDigits | src/main.rs:123 | every optional `+` or `-` followed by one or more digits, leading zeros included, parses to its value when that fits in 32 bits, and fails otherwise |
| Text.ParseDecimal | src/main.rs:123 | parsing the decimal spelling, with or without a sign, gives back the number: parse inverts spelling on i32 range |
| Epsg.CodeOfPiece | src/main.rs:123-126 | bytes `[1, len-3)` of the piece are parsed; a piece shorter than 4 is the out-of-bounds slice, otherwise success exactly when the middle parses as i32, and the code returned is the value parsed from it |
| Epsg.ExtractEpsg | src/main.rs:117-126 | the slice fails out of bounds exactly when the piece after the last `EPSG",` is shorter than 4; a success is an i32 |
| Epsg.PieceAfterLastMarker | src/main.rs:118-122 | whatever precedes it, the text after the last `EPSG",` is the piece that is sliced |
| Epsg.ExtractsTrailingCode | src/main.rs:117-126 | a projection ending in `EPSG","<code>"]]` yields that code whatever comes before |
| Epsg.Utm32Example | src/main.rs:241-255 | the projection text of an ETRS89 / UTM zone 32N raster yields 25832 |
| Epsg.WithoutMarkerWholeText | src/main.rs:118-126 | a projection without the marker is sliced as a whole |
| Epsg.EmptyProjectionIsOutOfBounds | src/main.rs:123 | an empty projection text hits the slice bounds |
| Epsg.AxisOrderOf | src/main.rs:152 | the axes are swapped exactly for EPSG 25832 |
| Epsg.OrientSpec | src/main.rs:152-155 | the correction exchanges the whole x list with the whole y list exactly for 25832, leaves other codes unchanged, and applied twice restores the lists |
| Epsg.CorrectAxisOrder | src/main.rs:152-155 | the in-place swap of the two-element corner arrays leaves them as the correction prescribes |
| Footprint.CornerArrays | src/main.rs:145-146 | x = [top-left x, x of pixel (width, height)] and y = [y of pixel (width, height), top-left y], by GDAL's geotransform convention |
| Footprint.Ring | src/main.rs:158-162 | four vertices, starting (x0, y0) and with (x1, y1) opposite |
| Footprint.RingIsProduct | src/main.rs:158-162 | the ring's vertices are exactly the product {x0, x1} × {y0, y1} |
| Footprint.RingSignedArea | src/main.rs:158-162 | by the shoelace formula the ring's signed area is (x0 - x1) * (y1 - y0): the vertex order fixes the winding |
| Footprint.RingWinding | src/main.rs:158-162 | with x0 < x1 and y0 < y1 the ring runs clockwise (negative signed area) |
| Footprint.NorthUpRingClockwise | src/main.rs:145-146 | for a north-up geotransform of a raster with pixels, the ring built from the untransformed corners runs clockwise |
| Footprint.RingIsRectangle | src/main.rs:158-162 | when the corners differ in both coordinates, every edge, the closing one included, is axis-parallel and the vertices are distinct |
| Footprint.SaturatingToI32 | src/main.rs:157 | `as i32` on a non-negative value truncates toward zero and saturates at i32::MAX |
| Footprint.Resolution | src/main.rs:157 | the score is `width / abs(x0 - x1)` truncated and saturated (the +500 bias cancels); a zero span gives i32::MAX, or 0 for zero width |
| Footprint.ResolutionPositive | src/main.rs:157 | the score is positive exactly when width > 0 and the span is zero or at most the width |
| Footprint.TransformAll | src/main.rs:147-150 | `transform_coords` succeeds only if every point transforms; then each output pair is the transform of the input pair at the same index |
| Footprint.TransformCoords | src/main.rs:147-150 | the arrays hold the transformed points on success; the source never reads them after a failure (it `continue`s), so the model leaves them as they were |
| Lookup.SampleRaster | src/main.rs:205-285 | after the query, every failure answers "Internal Server Error {lat} {lon}." with elevation 0; the lookup panics exactly when open, both spatial references, the transform and the geotransform succeed and the code piece is shorter than 4; an answer without error is a pixel read from band 1 of the opened raster |
| Lookup.Lookup | src/main.rs:183-286 | every answer echoes lat/lon; errors carry elevation 0; pool failure gives "Internal Server Error"; a failed query or no rows gives "No such coordinate"; otherwise row 0 is sampled; a success is a byte value |
| Lookup.HighestResolutionWins | src/main.rs:192-205 | with rows ordered by descending resolution, the raster sampled has the highest resolution among those containing the point |
| Lookup.SuccessNeedsEveryStep | src/main.rs:183-282 | an answer without error means every step succeeded: pool, query with a row, open, both spatial references, transform, geotransform, EPSG code, band 1, the point transform of the (possibly exchanged) point, and the read at its output, which gave the elevation |
| Lookup.SwapBeforeTransformOnly | src/main.rs:256-285 | at lookup the transform receives (lat, lon) for 25832 and (lon, lat) otherwise; a point it rejects answers "Internal Server Error {lat} {lon}.", and otherwise its output is read without a second exchange |
| Model.ErrorTextsDistinguishKinds | src/main.rs:188-284 | the error texts name their kind: two errors that render to the same text are of the same kind, and two bad-format errors with the same text are equal |
| Handlers.KeyInjective | src/main.rs:307 | two `f64` points share a cache key only if they are the same point |
| Handlers.CachedLookup | src/main.rs:307-314 | the answer is the lookup's; the lookup runs exactly on a miss, and only a miss that answers is inserted, which keeps every cached entry equal to the lookup of its key |
| Handlers.KeySetMembers | src/main.rs:304-316 | the keys of a batch prefix are exactly the keys of its points |
| Handlers.WarmCacheComputesNothing | src/main.rs:307-308 | when every key of the batch is already cached, no lookup runs |
| Handlers.MissesAreFreshAndDistinct | src/main.rs:307-313 | every point looked up had a key absent from the starting cache, and no key is looked up twice in one batch |
| Handlers.PostLookup | src/main.rs:302-317 | one answer per point, in order, each the lookup's answer for that point; afterwards every key is cached and the cache stays consistent; the lookups run are exactly the misses; a panicking lookup ends the batch, and the keys of the points answered before it stay cached |
| Handlers.ParseSegment | src/main.rs:346-374 | a segment yields a point exactly when its first and its last comma field both parse; lat comes from the first field, lon from the last |
| Handlers.FirstFieldBeforeComma | src/main.rs:346-353 | lat is read from the text before the first comma |
| Handlers.LastFieldAfterComma | src/main.rs:346-360 | lon is read from the text after the last comma |
| Handlers.NoCommaSameText | src/main.rs:346-360 | a segment without a comma is used whole for both lat and lon |
| Handlers.MiddleFieldsIgnored | src/main.rs:346-374 | fields between the first and the last comma do not affect the point |
| Handlers.SegmentOutcome | src/main.rs:361-374 | a segment that does not parse answers "Bad parameter format {segment}." at (0, 0), elevation 0 |
| Handlers.GetLookup | src/main.rs:336-385 | without `locations`, exactly one "locations is a required parameter" answer at (0, 0); otherwise one answer per pipe-separated segment, in order; a bad segment never ends the batch; the cache stays consistent and only grows |
| Ingest.FileStep | src/main.rs:107-167 | a file panics exactly when it opens and its code piece is shorter than 4; a stored record passed every step, keeps the file's relative path, has a four-vertex ring and an i32 score |
| Ingest.FileStepStoresExactlyPrepared | src/main.rs:107-167 | a file is stored exactly when every step through the transform succeeds and the insert succeeds, and the stored record is the file's path, the score and the ring of the transformed corners after the 25832 exchange |
| Ingest.SwapAfterTransformAtIngest | src/main.rs:145-155 | at ingestion the native corners are transformed first and exchanged afterwards for 25832: each final corner pair is the transform of the native pair, read back swapped for 25832 |
| Ingest.IngestFile | src/main.rs:107-167 | the loop body over the mutable corner arrays has exactly the outcome of the pipeline |
| Ingest.Walk | src/main.rs:103-168 | the walk only appends: the rows the table held are a prefix of the rows afterwards |
| Ingest.WalkAppend | src/main.rs:103-168 | walking two lists of files walks the second from where the first left off, unless the first panicked |
| Ingest.WalkCompletes | src/main.rs:103-168 | without a panic, the records of exactly the stored files are inserted, in walk order |
| Ingest.WalkStopsAtFirstAbort | src/main.rs:103-168 | the first panic ends the walk: only files before it are inserted |
| Ingest.SkippedFileInvisible | src/main.rs:103-168 | a file that fails any step leaves no trace: the walk equals the walk without it |
| Ingest.IngestRun | src/main.rs:80-170 | `Err` exactly when the connection or CREATE TABLE fails, with no file visited; a failed DROP is ignored and the old rows stay in front |
| Ingest.CompletedRunInsertsEveryGoodFile | src/main.rs:80-170 | without a panicking file the build returns `Ok(true)` and the rows are the start rows followed by the records of exactly the good files, in walk order |
| Ingest.ParseDataCreateDatabase | src/main.rs:80-170 | the connect, drop, create statements and the `for` loop with its `continue`s have exactly the outcome of the build |
| Ingest.EmptyProjectionAbortsWalk | src/main.rs:112-126 | as written, a raster with an empty projection panics, and no file after it is indexed |
| Ingest.FileStepCorrected | src/main.rs:123-126 | with the slice guarded, a too-short code piece skips the file like any other unparsable code, and nothing else changes |
| Ingest.CorrectedWalkNeverAborts | src/main.rs:103-168 | with the guard, the walk never ends early and inserts the record of every file whose as-written step stores one, in walk order |

## Left out

- GDAL: opening a raster, the spatial references, the coordinate-transform
  maths, the geotransform and the band read. Each is an oracle field of
  `Dataset`, `LookupEnv` or `IngestEnv` (foreign library calls).
- PostGIS: the `ST_Contains` query, the SQL text, WKB encoding and the bb8
  pool. The query is an oracle returning rows or failing; inserts and
  statements are booleans.
- The pixel-index computation (src/main.rs:269-272): `f64` rounding and
  `as isize` casts. It is folded into `Dataset.readAt` (floating point).
- `u8` to `i32`: the sampled value is a `Byte` in [0, 256).
- Floating point: all coordinates are exact `real`s, with no NaN or
  infinity.
  - Resolution models the saturating `as i32` casts of a zero span
    (infinity gives i32::MAX, NaN gives 0). A rounded `f64` span is not
    modelled.
- `f64` parsing and `{}` formatting are the parameters of `FloatText`.
  Which reals are `f64` values is also a parameter: `FloatText.isF64`.
- Handlers.PostLookup: requires every point to be an `f64` value. JSON
  deserialisation guarantees this in the service.
- Handlers.GetLookup: states the answers and the consistency of the cache,
  not which lookups ran. The batch cache discipline is stated in detail
  only for the POST loop.
- Byte versus character positions: texts are sequences of characters.
  - `str::split` and the `[1, len-3)` slice work on bytes. A multi-byte
    character at the slice boundary, which panics in Rust, is not modelled.
  - `to_str().unwrap()` on a non-UTF-8 path (a panic) is not modelled.
- The moka cache: size-bounded eviction and concurrent handlers sharing
  the cache are not modelled. The cache is a plain map passed in and out
  of one handler call.
- `main` (src/main.rs:390-458): environment variables, the CLI flag,
  router, listener and exit codes are configuration and I/O.
- The directory walk: `WalkDir`'s error and directory filtering is taken as
  given. The model receives the list of non-directory entries, each with
  the outcome of `strip_prefix`.
- Logging (`println!`, `eprintln!`) is not modelled.
- The ring handed to PostGIS: `Polygon::new` closes the ring with a copy of
  its first vertex. The model keeps the four listed vertices.
- Degenerate rasters are not rejected: a raster whose transformed x span
  is zero is stored with score i32::MAX (or 0 when its width is 0), like
  any other raster.

## Findings

| source | as written | input that shows it | evidently intended | confidence | as-written member | corrected member |
|---|---|---|---|---|---|---|
| src/main.rs:123 | the EPSG code is sliced out of the last piece as `[1, len-3)` without a length check, so a piece shorter than 4 bytes panics inside the walk and ends the whole index build | a raster that opens but reports an empty projection (no CRS), placed before other good rasters in walk order | skip the file like any other unparsable EPSG code and carry on with the walk | not executed | Ingest.EmptyProjectionAbortsWalk | Ingest.CorrectedWalkNeverAborts |

=== FILE: epsg.dfy ===
/**
 * CRS resolver: the EPSG code read out of a raster's projection text, and
 * the axis-order correction that EPSG:25832 needs around the coordinate
 * transform.
 */
module Epsg {
  import opened Wrappers
  import opened Text

  /** The literal the projection text is split on: `EPSG",`. */
  const Marker: string := "EPSG\","

  /** The EPSG code of ETRS89 / UTM zone 32N, whose transform output has its axes swapped. */
  const Etrs89Utm32: int := 25832

  /**
   * Why extraction fails. `SliceOutOfBounds` is the case where the byte range
   * `[1, len - 3)` of the last piece does not exist; in the service it is a
   * panic, not a handled error.
   */
  datatype EpsgError = SliceOutOfBounds | NotAnInteger

  /** The text after the last `EPSG",` (the whole text when there is none). */
  function CodePiece(projection: string): string {
    Last(Split(projection, Marker))
  }

  /** The code spelled by the piece once its first byte and its last three bytes are dropped. */
  function CodeOfPiece(piece: string): (r: Result<int, EpsgError>)
    ensures r.Success? ==> I32Min <= r.value <= I32Max
    ensures r.Failure? && r.error == SliceOutOfBounds <==> |piece| < 4
    ensures |piece| >= 4 ==> (r.Success? <==> ParseI32(piece[1..|piece| - 3]).Some?)
    ensures r.Success? ==> |piece| >= 4 && ParseI32(piece[1..|piece| - 3]) == Some(r.value)
  {
    if |piece| < 4 then Failure(SliceOutOfBounds)
    else
      match ParseI32(piece[1..|piece| - 3])
      case None => Failure(NotAnInteger)
      case Some(n) => Success(n)
  }

  /** EPSG extraction as the ingestion loop and the lookup perform it. */
  function ExtractEpsg(projection: string): (r: Result<int, EpsgError>)
    ensures r.Success? ==> I32Min <= r.value <= I32Max
    ensures r.Failure? && r.error == SliceOutOfBounds <==> |CodePiece(projection)| < 4
  {
    CodeOfPiece(CodePiece(projection))
  }

  /** `EPSG",` cannot overlap itself: an occurrence that starts inside `p` ends inside `p`. */
  lemma MarkerDoesNotStraddle(p: string, t: string, i: nat)
    requires i < |p|
    ensures OccursAt(p + Marker + t, Marker, i) ==> i + |Marker| <= |p|
  {
    var s := p + Marker + t;
    if OccursAt(s, Marker, i) {
      forall q | i < q < i + |Marker| ensures s[q] != 'E' {
        assert s[q] == s[i..i + |Marker|][q - i] == Marker[q - i];
      }
      assert s[|p|] == 'E';
    }
  }

  /** Whatever precedes it, the last `EPSG",` decides the piece: the text after it. */
  lemma PieceAfterLastMarker(p: string, t: string)
    requires forall j: nat :: !OccursAt(t, Marker, j)
    ensures CodePiece(p + Marker + t) == t
  {
    var s := p + Marker + t;
    var n := |p| + |Marker|;
    assert s[|p|..n] == Marker;
    assert s[n..] == t;
    forall j: nat | |p| - |Marker| < j && j != |p| ensures !OccursAt(s, Marker, j) {
      if j < |p| {
        MarkerDoesNotStraddle(p, t, j);
      } else if j < n {
        OccurrenceStartsWithFirst(s, Marker, j);
        assert s[j] == Marker[j - |p|];
      } else {
        OccurrenceInSuffix(s, Marker, n, j);
      }
    }
    LastStartAfter(s, Marker, 0, |p|);
    LastPieceIsTail(s, Marker);
  }

  /** A text without the letter `E` holds no `EPSG",`. */
  lemma NoMarkerWithoutE(t: string)
    requires 'E' !in t
    ensures forall j: nat :: !OccursAt(t, Marker, j)
  {
    forall j: nat ensures !OccursAt(t, Marker, j) {
      if j + |Marker| <= |t| {
        assert t[j..j + |Marker|][0] == t[j];
        assert t[j] in t;
      }
    }
  }

  /**
   * The authority block as a projection text ends, `EPSG","<code>"]]`, gives
   * back the code whatever the text before it holds.
   */
  lemma {:induction false} ExtractsTrailingCode(prefix: string, code: nat)
    requires code <= I32Max
    ensures ExtractEpsg(prefix + Marker + "\"" + Decimal(code) + "\"]]") == Success(code)
  {
    var d := Decimal(code);
    var t := "\"" + d + "\"]]";
    assert 'E' !in t by {
      forall k | 0 <= k < |t| ensures t[k] != 'E' {
        if 1 <= k < |t| - 3 { assert t[k] == d[k - 1]; assert IsDigit(d[k - 1]); }
      }
    }
    NoMarkerWithoutE(t);
    assert prefix + Marker + "\"" + d + "\"]]" == prefix + Marker + t;
    PieceAfterLastMarker(prefix, t);
    assert t[1..|t| - 3] == d;
    ParseDecimal(code);
  }

  /** The projection text of an ETRS89 / UTM zone 32N raster yields 25832. */
  lemma Utm32Example()
    ensures ExtractEpsg("PROJCS[\"ETRS89 / UTM zone 32N\",AUTHORITY[\"EPSG\",\"25832\"]]") == Success(25832)
  {
    assert Decimal(2) == "2";
    assert Decimal(25) == "25";
    assert Decimal(258) == "258";
    assert Decimal(2583) == "2583";
    assert Decimal(25832) == "25832";
    var prefix := "PROJCS[\"ETRS89 / UTM zone 32N\",AUTHORITY[\"";
    assert prefix + Marker + "\"" + Decimal(25832) + "\"]]"
        == "PROJCS[\"ETRS89 / UTM zone 32N\",AUTHORITY[\"EPSG\",\"25832\"]]";
    ExtractsTrailingCode(prefix, 25832);
  }

  /** A text without the marker is sliced as a whole: the `None` arm of `last()` is never taken. */
  lemma WithoutMarkerWholeText(projection: string)
    requires forall j: nat :: !OccursAt(projection, Marker, j)
    ensures ExtractEpsg(projection) == CodeOfPiece(projection)
  {
    SplitWithoutSep(projection, Marker);
  }

  /** An empty projection text (a raster without a CRS) hits the slice bounds. */
  lemma EmptyProjectionIsOutOfBounds()
    ensures ExtractEpsg("") == Failure(SliceOutOfBounds)
  {
    SplitWithoutSep("", Marker);
  }

  // ---------------------------------------------------------------------
  // Axis order
  // ---------------------------------------------------------------------

  datatype AxisOrder = Normal | Swapped

  /** The one-entry table of raster CRSs whose transform reports the axes swapped. */
  function AxisOrderOf(epsg: int): (o: AxisOrder)
    ensures o == Swapped <==> epsg == Etrs89Utm32
  {
    if epsg == Etrs89Utm32 then Swapped else Normal
  }

  /** The x and y coordinate lists as the code leaves them after the EPSG:25832 check. */
  function Orient<T>(epsg: int, xs: T, ys: T): (r: (T, T))
  {
    if AxisOrderOf(epsg) == Swapped then (ys, xs) else (xs, ys)
  }

  /** The correction swaps the whole x list with the whole y list exactly for 25832, and undoes itself. */
  lemma OrientSpec<T>(epsg: int, xs: T, ys: T)
    ensures epsg == Etrs89Utm32 ==> Orient(epsg, xs, ys) == (ys, xs)
    ensures epsg != Etrs89Utm32 ==> Orient(epsg, xs, ys) == (xs, ys)
    ensures Orient(epsg, Orient(epsg, xs, ys).0, Orient(epsg, xs, ys).1) == (xs, ys)
  {
  }

  /** The in-place swap of the two-element corner arrays after the transform at ingestion. */
  method CorrectAxisOrder(epsg: int, x: array<real>, y: array<real>)
    requires x != y && x.Length == 2 && y.Length == 2
    modifies x, y
    ensures (x[..], y[..]) == Orient(epsg, old(x[..]), old(y[..]))
  {
    ghost var x0, y0 := x[..], y[..];
    if epsg == Etrs89Utm32 {
      x[0], x[1], y[0], y[1] := y[0], y[1], x[0], x[1];
      assert x[..] == y0 && y[..] == x0;
    }
  }
}

=== FILE: footprint.dfy ===
/**
 * Footprint geometry: the raster's two extreme corners from its geotransform,
 * the four-vertex ring built from them, the integer resolution score, and
 * the coordinate transform applied to the corner arrays. Arithmetic is exact
 * (`real`); the service computes in `f64`.
 */
module Footprint {
  import opened Wrappers
  import opened Text

  /** The six affine coefficients GDAL reports for a raster. */
  datatype GeoTransform = GeoTransform(c0: real, c1: real, c2: real, c3: real, c4: real, c5: real)

  datatype Point = Point(x: real, y: real)

  /** GDAL's geotransform convention: pixel (column, row) to native (x, y). */
  function PixelToNative(gt: GeoTransform, col: real, row: real): Point {
    Point(gt.c0 + col * gt.c1 + row * gt.c2, gt.c3 + col * gt.c4 + row * gt.c5)
  }

  /**
   * The `x_coord` and `y_coord` arrays before the transform: the x list holds
   * the top-left x then the x of the opposite corner (pixel (width, height)),
   * the y list the opposite y then the top-left y.
   */
  function CornerArrays(gt: GeoTransform, width: nat, height: nat): (r: (seq<real>, seq<real>))
    ensures |r.0| == 2 && |r.1| == 2
    ensures Point(r.0[0], r.1[1]) == PixelToNative(gt, 0.0, 0.0) == Point(gt.c0, gt.c3)
    ensures Point(r.0[1], r.1[0]) == PixelToNative(gt, width as real, height as real)
  {
    var topLeft := PixelToNative(gt, 0.0, 0.0);
    var opposite := PixelToNative(gt, width as real, height as real);
    ([topLeft.x, opposite.x], [opposite.y, topLeft.y])
  }

  /** The polygon ring handed to the store: (x0,y0), (x0,y1), (x1,y1), (x1,y0). */
  function Ring(xs: seq<real>, ys: seq<real>): (ring: seq<Point>)
    requires |xs| == 2 && |ys| == 2
    ensures |ring| == 4
    ensures ring[0] == Point(xs[0], ys[0]) && ring[2] == Point(xs[1], ys[1])
  {
    [Point(xs[0], ys[0]), Point(xs[0], ys[1]), Point(xs[1], ys[1]), Point(xs[1], ys[0])]
  }

  /** Two vertices differ in exactly one coordinate: they span an axis-parallel edge. */
  predicate AxisParallelEdge(a: Point, b: Point) {
    (a.x == b.x) != (a.y == b.y)
  }

  /** The ring's vertices are exactly the four corners {x0, x1} x {y0, y1}. */
  lemma RingIsProduct(xs: seq<real>, ys: seq<real>)
    requires |xs| == 2 && |ys| == 2
    ensures (set k | 0 <= k < 4 :: Ring(xs, ys)[k]) == (set x, y | x in xs && y in ys :: Point(x, y))
  {
    var ring := Ring(xs, ys);
    var product := set x, y | x in xs && y in ys :: Point(x, y);
    forall p | p in product ensures p in (set k | 0 <= k < 4 :: ring[k]) {
      var x, y :| x in xs && y in ys && p == Point(x, y);
      var i :| 0 <= i < 2 && xs[i] == x;
      var j :| 0 <= j < 2 && ys[j] == y;
      var k := if i == 0 then (if j == 0 then 0 else 1) else (if j == 0 then 3 else 2);
      assert ring[k] == p;
    }
  }

  /**
   * When the corners differ in both coordinates, every edge of the ring, the
   * closing one included, is axis-parallel and the four vertices are
   * pairwise distinct: the ring is a simple rectangle.
   */
  lemma RingIsRectangle(xs: seq<real>, ys: seq<real>)
    requires |xs| == 2 && |ys| == 2
    requires xs[0] != xs[1] && ys[0] != ys[1]
    ensures var ring := Ring(xs, ys);
      && AxisParallelEdge(ring[0], ring[1]) && AxisParallelEdge(ring[1], ring[2])
      && AxisParallelEdge(ring[2], ring[3]) && AxisParallelEdge(ring[3], ring[0])
    ensures forall k, l :: 0 <= k < l < 4 ==> Ring(xs, ys)[k] != Ring(xs, ys)[l]
  {
  }

  /** The cross product of two vertices: one edge's term of the shoelace formula. */
  function Cross(a: Point, b: Point): real {
    a.x * b.y - b.x * a.y
  }

  /** The shoelace sum over the first `k` edges of a closed ring, the last edge wrapping to the first vertex. */
  function Shoelace(ring: seq<Point>, k: nat): real
    requires k <= |ring|
  {
    if k == 0 then 0.0 else Shoelace(ring, k - 1) + Cross(ring[k - 1], ring[k % |ring|])
  }

  /** The signed area of a ring: positive when it winds counter-clockwise, negative when clockwise. */
  function SignedArea(ring: seq<Point>): real {
    Shoelace(ring, |ring|) / 2.0
  }

  /** The shoelace formula on the ring: its signed area is (x0 - x1) * (y1 - y0). */
  lemma RingSignedArea(xs: seq<real>, ys: seq<real>)
    requires |xs| == 2 && |ys| == 2
    ensures SignedArea(Ring(xs, ys)) == (xs[0] - xs[1]) * (ys[1] - ys[0])
  {
    var ring := Ring(xs, ys);
    var x0, x1, y0, y1 := xs[0], xs[1], ys[0], ys[1];
    assert Shoelace(ring, 1) == Cross(ring[0], ring[1]);
    assert Shoelace(ring, 2) == Shoelace(ring, 1) + Cross(ring[1], ring[2]);
    assert Shoelace(ring, 3) == Shoelace(ring, 2) + Cross(ring[2], ring[3]);
    assert Shoelace(ring, 4) == Shoelace(ring, 3) + Cross(ring[3], ring[0]);
    assert Shoelace(ring, 4) == (x0 * y1 - x0 * y0) + (x0 * y1 - x1 * y1) + (x1 * y0 - x1 * y1) + (x1 * y0 - x0 * y0);
    var area := (x0 - x1) * (y1 - y0);
    assert area == x0 * y1 - x0 * y0 - x1 * y1 + x1 * y0;
    assert Shoelace(ring, 4) == 2.0 * area;
  }

  /**
   * The ring winds one fixed way: with x0 < x1 and y0 < y1 it runs
   * clockwise, (x0,y0) up to (x0,y1) first.
   */
  lemma RingWinding(xs: seq<real>, ys: seq<real>)
    requires |xs| == 2 && |ys| == 2 && xs[0] < xs[1] && ys[0] < ys[1]
    ensures SignedArea(Ring(xs, ys)) < 0.0
  {
    RingSignedArea(xs, ys);
    NegativeTimesPositive(xs[0] - xs[1], ys[1] - ys[0]);
  }

  lemma NegativeTimesPositive(a: real, b: real)
    requires a < 0.0 && b > 0.0
    ensures a * b < 0.0
  {
  }

  /** A north-up geotransform: positive pixel width, negative pixel height, no rotation terms. */
  predicate NorthUp(gt: GeoTransform) {
    gt.c1 > 0.0 && gt.c5 < 0.0 && gt.c2 == 0.0 && gt.c4 == 0.0
  }

  /** For a north-up raster with pixels, the ring built from the untransformed corner lists runs clockwise. */
  lemma NorthUpRingClockwise(gt: GeoTransform, width: nat, height: nat)
    requires NorthUp(gt) && width > 0 && height > 0
    ensures var c := CornerArrays(gt, width, height); SignedArea(Ring(c.0, c.1)) < 0.0
  {
    var c := CornerArrays(gt, width, height);
    assert width as real * gt.c1 > 0.0;
    assert height as real * gt.c5 < 0.0;
    assert c.0[0] < c.0[1] && c.1[0] < c.1[1];
    RingWinding(c.0, c.1);
  }

  function Abs(v: real): real {
    if v < 0.0 then -v else v
  }

  /** Rust's saturating `f64 as i32` for a non-negative finite value: truncation, capped at i32::MAX. */
  function SaturatingToI32(q: real): (r: int)
    requires q >= 0.0
    ensures 0 <= r <= I32Max
    ensures r as real <= q
    ensures r < I32Max ==> q < (r + 1) as real
  {
    if q.Floor > I32Max then I32Max else q.Floor
  }

  /**
   * The resolution score `(width / |(500 + x0) - (500 + x1)|) as i32`. A zero
   * span divides by zero in `f64`: infinity saturates to i32::MAX, and 0/0 is
   * NaN, which casts to 0.
   */
  function Resolution(width: nat, x0: real, x1: real): (r: int)
    ensures 0 <= r <= I32Max
    ensures x0 != x1 ==> r as real <= width as real / Abs(x0 - x1)
    ensures x0 != x1 && r < I32Max ==> width as real / Abs(x0 - x1) < (r + 1) as real
    ensures x0 == x1 ==> r == (if width == 0 then 0 else I32Max)
  {
    var span := Abs((500.0 + x0) - (500.0 + x1));
    if span == 0.0 then (if width == 0 then 0 else I32Max)
    else SaturatingToI32(width as real / span)
  }

  /**
   * The score is positive exactly when the raster has pixels and its x span
   * is zero or at most its width: below one pixel per unit it truncates to 0.
   */
  lemma ResolutionPositive(width: nat, x0: real, x1: real)
    ensures Resolution(width, x0, x1) > 0 <==> width > 0 && (x0 == x1 || Abs(x0 - x1) <= width as real)
  {
    if x0 != x1 {
      var d := Abs(x0 - x1);
      var q := width as real / d;
      assert q * d == width as real;
      if d <= width as real {
        assert q >= 1.0;
      } else {
        assert q < 1.0;
      }
    }
  }

  // ---------------------------------------------------------------------
  // The coordinate transform, an external primitive
  // ---------------------------------------------------------------------

  /** One point through GDAL's coordinate transform; `None` when it fails. */
  type Transform = (real, real) -> Option<(real, real)>

  /** `transform_coords` over parallel x and y lists: every point transformed, or failure if any point fails. */
  function TransformAll(t: Transform, xs: seq<real>, ys: seq<real>): (r: Option<(seq<real>, seq<real>)>)
    requires |xs| == |ys|
    ensures r.Some? ==> |r.value.0| == |xs| && |r.value.1| == |xs|
    ensures r.Some? ==> forall i :: 0 <= i < |xs| ==> t(xs[i], ys[i]) == Some((r.value.0[i], r.value.1[i]))
    ensures r.None? ==> exists i :: 0 <= i < |xs| && t(xs[i], ys[i]).None?
  {
    if |xs| == 0 then Some(([], []))
    else
      match t(xs[0], ys[0])
      case None => None
      case Some(p) =>
        match TransformAll(t, xs[1..], ys[1..])
        case None => None
        case Some(rest) =>
          var r := ([p.0] + rest.0, [p.1] + rest.1);
          assert forall i :: 1 <= i < |xs| ==> xs[1..][i - 1] == xs[i] && ys[1..][i - 1] == ys[i];
          Some(r)
  }

  /** The transform applied in place to the two coordinate arrays. */
  method TransformCoords(t: Transform, x: array<real>, y: array<real>) returns (ok: bool)
    requires x != y && x.Length == y.Length
    modifies x, y
    ensures ok == TransformAll(t, old(x[..]), old(y[..])).Some?
    ensures ok ==> (x[..], y[..]) == TransformAll(t, old(x[..]), old(y[..])).value
    ensures !ok ==> x[..] == old(x[..]) && y[..] == old(y[..])
  {
    var r := TransformAll(t, x[..], y[..]);
    if r.None? {
      return false;
    }
    var (nx, ny) := r.value;
    forall i | 0 <= i < x.Length {
      x[i] := nx[i];
    }
    forall i | 0 <= i < y.Length {
      y[i] := ny[i];
    }
    assert x[..] == nx && y[..] == ny;
    ok := true;
  }
}

=== FILE: handlers.dfy ===
/**
 * The two request handlers: the POST batch loop and the GET `locations`
 * parser, both fronted by the result cache keyed `"{lat},{lon}"`. The cache
 * is a map threaded through the loop; the lookup is any deterministic
 * function `f` from (lat, lon) to an outcome (in the service, `Lookup.Lookup`
 * on a fixed world).
 */
module Handlers {
  import opened Wrappers
  import opened Text
  import opened Model
  import opened Lookup

  type Cache = map<string, CoordinateResult>
  type LookupFn = (real, real) -> LookupOutcome

  // ---------------------------------------------------------------------
  // Cache keys
  // ---------------------------------------------------------------------

  /** The cache key `format!("{},{}", lat, lon)`, given the `{}` formatting of an `f64`. */
  function Key(fmt: real -> string, lat: real, lon: real): string {
    fmt(lat) + "," + fmt(lon)
  }

  function LocKey(fmt: real -> string, loc: Location): string {
    Key(fmt, loc.latitude, loc.longitude)
  }

  /**
   * Rust's `f64` as the model sees it: which reals are `f64` values, their
   * `{}` text, and `str::parse::<f64>`.
   */
  datatype FloatText = FloatText(isF64: real -> bool, fmt: real -> string, parse: string -> Option<real>)

  /**
   * What the model needs of them: parsing yields an `f64`, and an `f64`
   * prints without a comma and parses back to itself (so distinct values
   * print differently).
   */
  ghost predicate Faithful(ft: FloatText) {
    && (forall a {:trigger ft.parse(ft.fmt(a))} :: ft.isF64(a) ==> ',' !in ft.fmt(a) && ft.parse(ft.fmt(a)) == Some(a))
    && (forall s :: ft.parse(s).Some? ==> ft.isF64(ft.parse(s).value))
  }

  /** A one-character separator occurs exactly where that character stands. */
  lemma CommaAt(s: string, j: nat)
    ensures OccursAt(s, ",", j) <==> j < |s| && s[j] == ','
  {
    if j < |s| {
      assert s[j..j + 1] == [s[j]];
    }
  }

  /** In `a + "," + rest` with `a` comma-free, the first comma is the one after `a`. */
  lemma FirstCommaAt(a: string, rest: string)
    requires ',' !in a
    ensures FindFrom(a + "," + rest, ",", 0) == Some(|a|)
  {
    var s := a + "," + rest;
    CommaAt(s, |a|);
    forall j: nat | j < |a| ensures !OccursAt(s, ",", j) {
      CommaAt(s, j);
      assert s[j] == a[j];
    }
  }

  /** Equal keys come from equal coordinates. */
  lemma KeyInjective(ft: FloatText, a: real, b: real, c: real, d: real)
    requires Faithful(ft) && ft.isF64(a) && ft.isF64(b) && ft.isF64(c) && ft.isF64(d)
    requires Key(ft.fmt, a, b) == Key(ft.fmt, c, d)
    ensures a == c && b == d
  {
    var fmt, parse := ft.fmt, ft.parse;
    assert parse(fmt(a)) == Some(a) && parse(fmt(b)) == Some(b);
    assert parse(fmt(c)) == Some(c) && parse(fmt(d)) == Some(d);
    FirstCommaAt(fmt(a), fmt(b));
    FirstCommaAt(fmt(c), fmt(d));
    var k := Key(fmt, a, b);
    assert fmt(a) == k[..|fmt(a)|] == fmt(c);
    assert fmt(b) == k[|fmt(a)| + 1..] == fmt(d);
  }

  /** Every cached answer is what the lookup gives for the point its key names. */
  ghost predicate Consistent(cache: Cache, f: LookupFn, ft: FloatText) {
    forall lat, lon {:trigger cache[Key(ft.fmt, lat, lon)]} :: ft.isF64(lat) && ft.isF64(lon) && Key(ft.fmt, lat, lon) in cache ==>
      f(lat, lon) == Answered(cache[Key(ft.fmt, lat, lon)])
  }

  predicate IsF64Point(ft: FloatText, loc: Location) {
    ft.isF64(loc.latitude) && ft.isF64(loc.longitude)
  }

  /**
   * `cache.get`, and on a miss the lookup and `cache.insert`. A panicking
   * lookup inserts nothing. `computed` tells whether the lookup ran.
   */
  method CachedLookup(loc: Location, cache: Cache, f: LookupFn, ft: FloatText)
    returns (o: LookupOutcome, cache': Cache, computed: bool)
    requires Faithful(ft) && IsF64Point(ft, loc) && Consistent(cache, f, ft)
    ensures o == f(loc.latitude, loc.longitude)
    ensures computed <==> LocKey(ft.fmt, loc) !in cache
    ensures cache' == if computed && o.Answered? then cache[LocKey(ft.fmt, loc) := o.result] else cache
    ensures o.Answered? ==> cache'.Keys == cache.Keys + {LocKey(ft.fmt, loc)}
    ensures Consistent(cache', f, ft)
  {
    var key := Key(ft.fmt, loc.latitude, loc.longitude);
    if key in cache {
      return Answered(cache[key]), cache, false;
    }
    o := f(loc.latitude, loc.longitude);
    computed := true;
    cache' := cache;
    if o.Answered? {
      cache' := cache[key := o.result];
      forall lat, lon | ft.isF64(lat) && ft.isF64(lon) && Key(ft.fmt, lat, lon) in cache'
        ensures f(lat, lon) == Answered(cache'[Key(ft.fmt, lat, lon)])
      {
        if Key(ft.fmt, lat, lon) == key {
          KeyInjective(ft, lat, lon, loc.latitude, loc.longitude);
        }
      }
    }
  }

  // ---------------------------------------------------------------------
  // POST: a batch of points
  // ---------------------------------------------------------------------

  /** The keys of the first `n` points of a batch. */
  function KeySet(fmt: real -> string, locs: seq<Location>, n: nat): set<string>
    requires n <= |locs|
  {
    if n == 0 then {} else KeySet(fmt, locs, n - 1) + {LocKey(fmt, locs[n - 1])}
  }

  /** The key set of a prefix holds the key of each of its points and nothing else. */
  lemma {:induction false} KeySetMembers(fmt: real -> string, locs: seq<Location>, n: nat)
    requires n <= |locs|
    ensures forall i :: 0 <= i < n ==> LocKey(fmt, locs[i]) in KeySet(fmt, locs, n)
    ensures forall k :: k in KeySet(fmt, locs, n) ==> exists i :: 0 <= i < n && LocKey(fmt, locs[i]) == k
  {
    if n > 0 {
      KeySetMembers(fmt, locs, n - 1);
    }
  }

  /**
   * The points among the first `n` whose lookup a batch runs, in order: those
   * whose key is neither known beforehand nor seen earlier in the batch.
   */
  function Misses(fmt: real -> string, locs: seq<Location>, n: nat, known: set<string>): seq<Location>
    requires n <= |locs|
  {
    if n == 0 then []
    else Misses(fmt, locs, n - 1, known) + (if LocKey(fmt, locs[n - 1]) in known + KeySet(fmt, locs, n - 1) then [] else [locs[n - 1]])
  }

  /** A batch whose keys are all cached runs no lookup (the second of two identical queries is served from the cache). */
  lemma {:induction false} WarmCacheComputesNothing(fmt: real -> string, locs: seq<Location>, n: nat, known: set<string>)
    requires n <= |locs| && KeySet(fmt, locs, n) <= known
    ensures Misses(fmt, locs, n, known) == []
  {
    if n > 0 {
      WarmCacheComputesNothing(fmt, locs, n - 1, known);
    }
  }

  /** Each lookup a batch runs is for a key of the batch that was not cached, and no key is looked up twice. */
  lemma {:induction false} MissesAreFreshAndDistinct(fmt: real -> string, locs: seq<Location>, n: nat, known: set<string>)
    requires n <= |locs|
    ensures forall i :: 0 <= i < |Misses(fmt, locs, n, known)| ==>
      LocKey(fmt, Misses(fmt, locs, n, known)[i]) !in known && LocKey(fmt, Misses(fmt, locs, n, known)[i]) in KeySet(fmt, locs, n)
    ensures forall i, j :: 0 <= i < j < |Misses(fmt, locs, n, known)| ==>
      LocKey(fmt, Misses(fmt, locs, n, known)[i]) != LocKey(fmt, Misses(fmt, locs, n, known)[j])
  {
    if n > 0 {
      MissesAreFreshAndDistinct(fmt, locs, n - 1, known);
    }
  }

  /** One more point joins the misses exactly when its key is not among those already seen. */
  lemma MissesStep(fmt: real -> string, locs: seq<Location>, n: nat, known: set<string>, seen: set<string>)
    requires n < |locs| && seen == known + KeySet(fmt, locs, n)
    ensures Misses(fmt, locs, n + 1, known) == Misses(fmt, locs, n, known) + (if LocKey(fmt, locs[n]) in seen then [] else [locs[n]])
  {
  }

  /** One point of a batch: the cached lookup, and the record of whether it ran. */
  method PostPoint(locations: seq<Location>, cache: Cache, current: Cache, results: seq<CoordinateResult>, computed: seq<Location>, f: LookupFn, ft: FloatText)
    returns (o: LookupOutcome, current': Cache, results': seq<CoordinateResult>, computed': seq<Location>)
    requires |results| < |locations| && Faithful(ft) && IsF64Point(ft, locations[|results|]) && Consistent(current, f, ft)
    requires current.Keys == cache.Keys + KeySet(ft.fmt, locations, |results|)
    requires computed == Misses(ft.fmt, locations, |results|, cache.Keys)
    requires forall j {:trigger results[j]} :: 0 <= j < |results| ==> f(locations[j].latitude, locations[j].longitude) == Answered(results[j])
    ensures o == f(locations[|results|].latitude, locations[|results|].longitude)
    ensures computed' == Misses(ft.fmt, locations, |results| + 1, cache.Keys)
    ensures o.Answered? ==> Consistent(current', f, ft) && current'.Keys == cache.Keys + KeySet(ft.fmt, locations, |results| + 1)
    ensures o.Answered? ==> results' == results + [o.result]
    ensures o.Answered? ==>
      forall j {:trigger results'[j]} :: 0 <= j < |results'| ==> f(locations[j].latitude, locations[j].longitude) == Answered(results'[j])
  {
    var i := |results|;
    var miss;
    o, current', miss := CachedLookup(locations[i], current, f, ft);
    MissesStep(ft.fmt, locations, i, cache.Keys, current.Keys);
    computed' := computed + if miss then [locations[i]] else [];
    results' := results;
    if o.Answered? {
      results' := results + [o.result];
    }
  }

  /**
   * `post_lookup_coordinates`: one answer per point, in order, each the
   * lookup's answer for that point; the lookups run are exactly the misses.
   * A panicking lookup ends the batch; what the points before it cached
   * stays cached.
   */
  method PostLookup(locations: seq<Location>, cache: Cache, f: LookupFn, ft: FloatText)
    returns (results: seq<CoordinateResult>, cache': Cache, computed: seq<Location>, panicked: bool)
    requires Faithful(ft) && Consistent(cache, f, ft)
    requires forall i :: 0 <= i < |locations| ==> IsF64Point(ft, locations[i])
    ensures Consistent(cache', f, ft)
    ensures |results| <= |locations|
    ensures forall i {:trigger results[i]} :: 0 <= i < |results| ==> f(locations[i].latitude, locations[i].longitude) == Answered(results[i])
    ensures !panicked <==> |results| == |locations|
    ensures panicked ==> f(locations[|results|].latitude, locations[|results|].longitude) == Panicked
    ensures !panicked ==> cache'.Keys == cache.Keys + KeySet(ft.fmt, locations, |locations|)
    ensures !panicked ==> computed == Misses(ft.fmt, locations, |locations|, cache.Keys)
    ensures panicked ==> computed == Misses(ft.fmt, locations, |results| + 1, cache.Keys)
    ensures panicked ==> cache'.Keys == cache.Keys + KeySet(ft.fmt, locations, |results|)
  {
    results, cache', computed, panicked := [], cache, [], false;
    while |results| < |locations|
      invariant |results| <= |locations|
      invariant Consistent(cache', f, ft)
      invariant cache'.Keys == cache.Keys + KeySet(ft.fmt, locations, |results|)
      invariant forall j {:trigger results[j]} :: 0 <= j < |results| ==> f(locations[j].latitude, locations[j].longitude) == Answered(results[j])
      invariant computed == Misses(ft.fmt, locations, |results|, cache.Keys)
      decreases |locations| - |results|
    {
      var o, c, r;
      o, c, r, computed := PostPoint(locations, cache, cache', results, computed, f, ft);
      if o.Panicked? {
        panicked := true;
        return;
      }
      assert |r| == |results| + 1;
      results, cache' := r, c;
    }
  }

  // ---------------------------------------------------------------------
  // GET: the `locations` parameter
  // ---------------------------------------------------------------------

  /** The text before the first comma of a segment (the whole segment when it has none). */
  function FirstField(segment: string): string {
    Split(segment, ",")[0]
  }

  /** The text after the last comma of a segment (the whole segment when it has none). */
  function LastField(segment: string): string {
    Last(Split(segment, ","))
  }

  /**
   * One `lat,lon` segment: latitude from the first field, longitude from the
   * last; the longitude is parsed first, and either failure rejects the segment.
   */
  function ParseSegment(segment: string, parse: string -> Option<real>): (r: Option<Location>)
    ensures r.Some? <==> parse(FirstField(segment)).Some? && parse(LastField(segment)).Some?
    ensures r.Some? ==> r.value == Location(parse(FirstField(segment)).value, parse(LastField(segment)).value)
  {
    match parse(LastField(segment))
    case None => None
    case Some(lon) =>
      match parse(FirstField(segment))
      case None => None
      case Some(lat) => Some(Location(lat, lon))
  }

  /** The first field is the text before the first comma. */
  lemma FirstFieldBeforeComma(a: string, rest: string)
    requires ',' !in a
    ensures FirstField(a + "," + rest) == a
  {
    var s := a + "," + rest;
    FirstCommaAt(a, rest);
    assert s[..|a|] == a;
  }

  /** The last field is the text after the last comma. */
  lemma LastFieldAfterComma(rest: string, b: string)
    requires ',' !in b
    ensures LastField(rest + "," + b) == b
  {
    var s := rest + "," + b;
    CommaAt(s, |rest|);
    forall j: nat | |rest| < j ensures !OccursAt(s, ",", j) {
      CommaAt(s, j);
      if j < |s| {
        assert s[j] == b[j - |rest| - 1];
      }
    }
    LastStartAfter(s, ",", 0, |rest|);
    LastPieceIsTail(s, ",");
    assert s[|rest| + 1..] == b;
  }

  /** A segment without a comma supplies the same text for latitude and longitude. */
  lemma NoCommaSameText(segment: string)
    requires ',' !in segment
    ensures FirstField(segment) == segment && LastField(segment) == segment
  {
    forall j: nat ensures !OccursAt(segment, ",", j) {
      CommaAt(segment, j);
    }
    SplitWithoutSep(segment, ",");
  }

  /** Fields between the first and the last comma are ignored. */
  lemma MiddleFieldsIgnored(a: string, middle: string, b: string, parse: string -> Option<real>)
    requires ',' !in a && ',' !in b
    ensures ParseSegment(a + "," + middle + "," + b, parse) == ParseSegment(a + "," + b, parse)
  {
    var s := a + "," + middle + "," + b;
    assert FirstField(s) == a by {
      assert s == a + "," + (middle + "," + b);
      FirstFieldBeforeComma(a, middle + "," + b);
    }
    assert LastField(s) == b by {
      assert s == (a + "," + middle) + "," + b;
      LastFieldAfterComma(a + "," + middle, b);
    }
    FirstFieldBeforeComma(a, b);
    LastFieldAfterComma(a, b);
    SameFieldsSameParse(s, a + "," + b, parse);
  }

  /** A segment's parse depends on its first and last fields only. */
  lemma SameFieldsSameParse(s: string, t: string, parse: string -> Option<real>)
    requires FirstField(s) == FirstField(t) && LastField(s) == LastField(t)
    ensures ParseSegment(s, parse) == ParseSegment(t, parse)
  {
  }

  /** The outcome the GET handler produces for one segment. */
  function SegmentOutcome(segment: string, parse: string -> Option<real>, f: LookupFn): (o: LookupOutcome)
    ensures ParseSegment(segment, parse).None? ==>
      o == Answered(ErrorResult(0.0, 0.0, BadParameterFormat(segment)))
  {
    match ParseSegment(segment, parse)
    case None => Answered(ErrorResult(0.0, 0.0, BadParameterFormat(segment)))
    case Some(loc) => f(loc.latitude, loc.longitude)
  }

  /**
   * `get_lookup_coordinates`: without `locations`, one error answer;
   * otherwise one answer per `|`-separated segment, in order, a bad segment
   * answered with its own error and the batch carrying on.
   */
  method GetLookup(params: map<string, string>, cache: Cache, f: LookupFn, ft: FloatText)
    returns (results: seq<CoordinateResult>, cache': Cache, panicked: bool)
    requires Faithful(ft) && Consistent(cache, f, ft)
    ensures Consistent(cache', f, ft) && cache.Keys <= cache'.Keys
    ensures "locations" !in params ==>
      results == [ErrorResult(0.0, 0.0, LocationsRequired)] && cache' == cache && !panicked
    ensures "locations" in params ==>
      var segments := Split(params["locations"], "|");
      && |results| <= |segments|
      && (forall i :: 0 <= i < |results| ==> SegmentOutcome(segments[i], ft.parse, f) == Answered(results[i]))
      && (!panicked <==> |results| == |segments|)
      && (panicked ==> SegmentOutcome(segments[|results|], ft.parse, f) == Panicked)
  {
    results, cache', panicked := [], cache, false;
    if "locations" !in params {
      results := [ErrorResult(0.0, 0.0, LocationsRequired)];
      return;
    }
    var segments := Split(params["locations"], "|");
    var i := 0;
    while i < |segments|
      invariant 0 <= i <= |segments| && |results| == i
      invariant Consistent(cache', f, ft) && cache.Keys <= cache'.Keys
      invariant forall j :: 0 <= j < i ==> SegmentOutcome(segments[j], ft.parse, f) == Answered(results[j])
    {
      var segment := segments[i];
      var loc := ParseSegment(segment, ft.parse);
      if loc.None? {
        results := results + [ErrorResult(0.0, 0.0, BadParameterFormat(segment))];
        i := i + 1;
        continue;
      }
      var o, c, _ := CachedLookup(loc.value, cache', f, ft);
      if o.Panicked? {
        panicked := true;
        return;
      }
      results, cache' := results + [o.result], c;
      i := i + 1;
    }
  }
}

=== FILE: ingest.dfy ===
/**
 * Index build (`parse_data_create_database`): connect, drop and recreate the
 * `geo_data` table, then walk the data directory and, for every file whose
 * every step succeeds, insert its path, resolution score and footprint ring.
 * A file that fails a step is skipped; a projection whose code piece is too
 * short panics on the slice and ends the whole run.
 */
module Ingest {
  import opened Wrappers
  import opened Text
  import opened Epsg
  import opened Footprint
  import opened Model

  /** A non-directory entry of the walk: its path relative to the data directory, `None` when `strip_prefix` fails. */
  datatype WalkEntry = WalkEntry(relative: Option<string>)

  /**
   * The world one index build sees: the pool and the two statements before
   * the walk, what opening a relative path gives, whether EPSG:4326 can be
   * built, and whether the store accepts an insert.
   */
  datatype IngestEnv = IngestEnv(
    connectOk: bool,
    dropOk: bool,
    createOk: bool,
    open: string -> Option<Dataset>,
    wgs84Ok: bool,
    insertOk: Record -> bool)

  /** A row of `geo_data` as the build writes it. */
  datatype Record = Record(path: string, resolution: int, ring: seq<Point>)

  /** The step at which a file is given up (`continue`). */
  datatype SkipReason =
    | BadPrefix
    | OpenFailed
    | EpsgNotAnInteger
    | EsriRefFailed
    | Wgs84Failed
    | NoTransform
    | NoGeoTransform
    | TransformFailed
    | InsertFailed

  /** What one file does to the run. */
  datatype Step = Stored(rec: Record) | Skipped(reason: SkipReason) | Abort

  /** The rows written so far, and whether a panic has ended the walk. */
  datatype WalkState = Walking(rows: seq<Record>) | Aborted(rows: seq<Record>)

  const ConnectFailed: string := "Database Connection could not be established"
  const CreateFailed: string := "New Database could not be created"

  /** How the build ends: `Ok(true)`, one of the two `Err` texts, or a panic. */
  datatype Reply = Completed | Err(msg: string) | Panicked

  datatype IngestResult = IngestResult(reply: Reply, rows: seq<Record>)

  // ---------------------------------------------------------------------
  // One file
  // ---------------------------------------------------------------------

  /**
   * Every step before the insert succeeds: the path is relative, the file
   * opens, its EPSG code parses, both spatial references and the transform
   * are built, the geotransform is read, and both corners transform.
   */
  predicate Prepared(env: IngestEnv, entry: WalkEntry) {
    && entry.relative.Some? && env.open(entry.relative.value).Some?
    && var ds := env.open(entry.relative.value).value;
    && ExtractEpsg(ds.projection).Success? && ds.esriRefOk && env.wgs84Ok
    && ds.toWgs84.Some? && ds.geoTransform.Some?
    && var corners := CornerArrays(ds.geoTransform.value, ds.width, ds.height);
    TransformAll(ds.toWgs84.value, corners.0, corners.1).Some?
  }

  /** The corner lists of a prepared file: transformed first, then exchanged for EPSG:25832. */
  function FinalCorners(env: IngestEnv, entry: WalkEntry): (c: (seq<real>, seq<real>))
    requires Prepared(env, entry)
    ensures |c.0| == 2 && |c.1| == 2
  {
    var ds := env.open(entry.relative.value).value;
    var corners := CornerArrays(ds.geoTransform.value, ds.width, ds.height);
    var native := TransformAll(ds.toWgs84.value, corners.0, corners.1).value;
    Orient(ExtractEpsg(ds.projection).value, native.0, native.1)
  }

  /** The row a prepared file is inserted as: its relative path, the score and the ring of its final corners. */
  function RecordOf(env: IngestEnv, entry: WalkEntry): Record
    requires Prepared(env, entry)
  {
    var c := FinalCorners(env, entry);
    var ds := env.open(entry.relative.value).value;
    Record(entry.relative.value, Resolution(ds.width, c.0[0], c.0[1]), Ring(c.0, c.1))
  }

  /** The pipeline for one file, every step in the order the loop takes it. */
  function FileStep(env: IngestEnv, entry: WalkEntry): (r: Step)
    ensures r.Abort? <==>
      entry.relative.Some? && env.open(entry.relative.value).Some?
      && |CodePiece(env.open(entry.relative.value).value.projection)| < 4
    ensures r.Stored? ==>
      && entry.relative == Some(r.rec.path) && env.open(r.rec.path).Some? && env.wgs84Ok
      && var ds := env.open(r.rec.path).value;
      && ExtractEpsg(ds.projection).Success? && ds.esriRefOk
      && ds.toWgs84.Some? && ds.geoTransform.Some?
      && |r.rec.ring| == 4 && 0 <= r.rec.resolution <= I32Max && env.insertOk(r.rec)
  {
    match entry.relative
    case None => Skipped(BadPrefix)
    case Some(path) =>
      match env.open(path)
      case None => Skipped(OpenFailed)
      case Some(ds) =>
        match ExtractEpsg(ds.projection)
        case Failure(SliceOutOfBounds) => Abort
        case Failure(NotAnInteger) => Skipped(EpsgNotAnInteger)
        case Success(epsg) =>
          if !ds.esriRefOk then Skipped(EsriRefFailed)
          else if !env.wgs84Ok then Skipped(Wgs84Failed)
          else
            match ds.toWgs84
            case None => Skipped(NoTransform)
            case Some(t) =>
              match ds.geoTransform
              case None => Skipped(NoGeoTransform)
              case Some(gt) =>
                var corners := CornerArrays(gt, ds.width, ds.height);
                match TransformAll(t, corners.0, corners.1)
                case None => Skipped(TransformFailed)
                case Some(native) =>
                  var (xs, ys) := Orient(epsg, native.0, native.1);
                  var rec := Record(path, Resolution(ds.width, xs[0], xs[1]), Ring(xs, ys));
                  if env.insertOk(rec) then Stored(rec) else Skipped(InsertFailed)
  }

  /**
   * A file is stored exactly when every step before the insert succeeds and
   * the store accepts its row, and the row stored is the one its final
   * corners give; a prepared file the store refuses is skipped at the insert.
   */
  lemma FileStepStoresExactlyPrepared(env: IngestEnv, entry: WalkEntry)
    ensures FileStep(env, entry).Stored? <==> Prepared(env, entry) && env.insertOk(RecordOf(env, entry))
    ensures Prepared(env, entry) ==>
      FileStep(env, entry) ==
        if env.insertOk(RecordOf(env, entry)) then Stored(RecordOf(env, entry)) else Skipped(InsertFailed)
  {
  }

  /**
   * At ingestion the EPSG:25832 exchange is applied to the transform's
   * output: the transform receives the corner lists as the geotransform
   * gives them, and for 25832 the first coordinate it returns for a corner
   * ends up in the y list, the second in the x list.
   */
  lemma SwapAfterTransformAtIngest(env: IngestEnv, entry: WalkEntry)
    requires Prepared(env, entry)
    ensures var ds := env.open(entry.relative.value).value;
      var corners := CornerArrays(ds.geoTransform.value, ds.width, ds.height);
      var c := FinalCorners(env, entry);
      var swapped := ExtractEpsg(ds.projection).value == Etrs89Utm32;
      forall i :: 0 <= i < 2 ==>
        ds.toWgs84.value(corners.0[i], corners.1[i]) == Some(if swapped then (c.1[i], c.0[i]) else (c.0[i], c.1[i]))
  {
    var ds := env.open(entry.relative.value).value;
    var corners := CornerArrays(ds.geoTransform.value, ds.width, ds.height);
    var native := TransformAll(ds.toWgs84.value, corners.0, corners.1).value;
    OrientSpec(ExtractEpsg(ds.projection).value, native.0, native.1);
  }

  /**
   * The loop body over the mutable corner arrays: built from the
   * geotransform, transformed in place, swapped for EPSG:25832, then scored,
   * turned into a ring and inserted.
   */
  method IngestFile(env: IngestEnv, entry: WalkEntry) returns (step: Step)
    ensures step == FileStep(env, entry)
  {
    if entry.relative.None? {
      return Skipped(BadPrefix);
    }
    var path := entry.relative.value;
    if env.open(path).None? {
      return Skipped(OpenFailed);
    }
    var ds := env.open(path).value;
    var epsg := ExtractEpsg(ds.projection);
    if epsg.Failure? {
      if epsg.error == SliceOutOfBounds {
        return Abort;
      }
      return Skipped(EpsgNotAnInteger);
    }
    if !ds.esriRefOk {
      return Skipped(EsriRefFailed);
    }
    if !env.wgs84Ok {
      return Skipped(Wgs84Failed);
    }
    if ds.toWgs84.None? {
      return Skipped(NoTransform);
    }
    if ds.geoTransform.None? {
      return Skipped(NoGeoTransform);
    }
    var corners := CornerArrays(ds.geoTransform.value, ds.width, ds.height);
    var x := new real[2];
    var y := new real[2];
    x[0], x[1] := corners.0[0], corners.0[1];
    y[0], y[1] := corners.1[0], corners.1[1];
    assert x[..] == corners.0 && y[..] == corners.1;
    var ok := TransformCoords(ds.toWgs84.value, x, y);
    if !ok {
      return Skipped(TransformFailed);
    }
    CorrectAxisOrder(epsg.value, x, y);
    var rec := Record(path, Resolution(ds.width, x[0], x[1]), Ring(x[..], y[..]));
    if !env.insertOk(rec) {
      return Skipped(InsertFailed);
    }
    return Stored(rec);
  }

  /** The outcome of every entry of the walk, in walk order. */
  function Steps(env: IngestEnv, entries: seq<WalkEntry>): (r: seq<Step>)
    ensures |r| == |entries|
    ensures forall i :: 0 <= i < |entries| ==> r[i] == FileStep(env, entries[i])
  {
    seq(|entries|, i requires 0 <= i < |entries| => FileStep(env, entries[i]))
  }

  // ---------------------------------------------------------------------
  // The walk
  // ---------------------------------------------------------------------

  /** One file's effect on the walk. */
  function Continue(rows: seq<Record>, s: Step): WalkState {
    match s
    case Stored(rec) => Walking(rows + [rec])
    case Skipped(_) => Walking(rows)
    case Abort => Aborted(rows)
  }

  /** The walk over the outcomes, file by file, from the rows the table already holds. */
  function Walk(steps: seq<Step>, rows: seq<Record>): (w: WalkState)
    ensures |rows| <= |w.rows| && w.rows[..|rows|] == rows
  {
    if |steps| == 0 then Walking(rows)
    else
      match Walk(steps[..|steps| - 1], rows)
      case Aborted(r) => Aborted(r)
      case Walking(r) => Continue(r, steps[|steps| - 1])
  }

  /** The records of the stored outcomes, in order: a reference definition that reads the outcomes front to back. */
  function Inserted(steps: seq<Step>): seq<Record> {
    if |steps| == 0 then [] else Written(steps[0]) + Inserted(steps[1..])
  }

  /** The record one outcome writes, if any. */
  function Written(s: Step): seq<Record> {
    if s.Stored? then [s.rec] else []
  }

  lemma {:induction false} InsertedAppend(a: seq<Step>, b: seq<Step>)
    ensures Inserted(a + b) == Inserted(a) + Inserted(b)
  {
    if |a| == 0 {
      assert a + b == b;
    } else {
      assert (a + b)[0] == a[0];
      assert (a + b)[1..] == a[1..] + b;
      InsertedAppend(a[1..], b);
      calc {
        Inserted(a + b);
        Written(a[0]) + Inserted(a[1..] + b);
        Written(a[0]) + (Inserted(a[1..]) + Inserted(b));
        (Written(a[0]) + Inserted(a[1..])) + Inserted(b);
        Inserted(a) + Inserted(b);
      }
    }
  }

  /** Walking a concatenation walks the second part from where the first left off, unless the first panicked. */
  lemma {:induction false} WalkAppend(a: seq<Step>, b: seq<Step>, rows: seq<Record>)
    ensures Walk(a + b, rows) ==
      match Walk(a, rows)
      case Aborted(r) => Aborted(r)
      case Walking(r) => Walk(b, r)
  {
    if |b| == 0 {
      assert a + b == a;
    } else {
      var b' := b[..|b| - 1];
      assert (a + b)[..|a + b| - 1] == a + b';
      assert (a + b)[|a + b| - 1] == b[|b| - 1];
      WalkAppend(a, b', rows);
    }
  }

  /** Without a panic, the walk appends exactly the stored records, in walk order. */
  lemma {:induction false} WalkCompletes(steps: seq<Step>, rows: seq<Record>)
    requires forall i :: 0 <= i < |steps| ==> !steps[i].Abort?
    ensures Walk(steps, rows) == Walking(rows + Inserted(steps))
  {
    if |steps| > 0 {
      var init := steps[..|steps| - 1];
      var s := steps[|steps| - 1];
      WalkCompletes(init, rows);
      assert init + [s] == steps;
      InsertedAppend(init, [s]);
      assert Inserted([s]) == Written(s) by {
        assert [s][1..] == [];
      }
    }
  }

  /** The first panic ends the walk: the rows are those of the files before it, and nothing after it is visited. */
  lemma WalkStopsAtFirstAbort(steps: seq<Step>, rows: seq<Record>, k: nat)
    requires k < |steps| && steps[k].Abort?
    requires forall i :: 0 <= i < k ==> !steps[i].Abort?
    ensures Walk(steps, rows) == Aborted(rows + Inserted(steps[..k]))
  {
    var head := steps[..k];
    WalkCompletes(head, rows);
    assert head + [steps[k]] == steps[..k + 1];
    WalkAppend(head, [steps[k]], rows);
    SplitAt(steps, k + 1);
    WalkAppend(steps[..k + 1], steps[k + 1..], rows);
  }

  /** A list is its prefix followed by the rest. */
  lemma SplitAt<T>(s: seq<T>, n: nat)
    requires n <= |s|
    ensures s[..n] + s[n..] == s
  {
    assert forall i :: 0 <= i < |s| ==> (s[..n] + s[n..])[i] == s[i];
  }

  /** A skipped file leaves no trace: the walk is the one over the other files. */
  lemma SkippedFileInvisible(a: seq<Step>, s: Step, b: seq<Step>, rows: seq<Record>)
    requires s.Skipped?
    ensures Walk(a + [s] + b, rows) == Walk(a + b, rows)
  {
    WalkAppend(a + [s], b, rows);
    WalkAppend(a, [s], rows);
    assert (a + [s])[..|a + [s]| - 1] == a;
    WalkAppend(a, b, rows);
  }

  // ---------------------------------------------------------------------
  // The whole build
  // ---------------------------------------------------------------------

  /** The table's rows at the start of the walk: emptied by a successful `DROP`, kept when it fails. */
  function StartRows(env: IngestEnv, table: seq<Record>): seq<Record> {
    if env.dropOk then [] else table
  }

  /** The build from the table it finds, as the function's early returns and its walk decide it. */
  function IngestRun(env: IngestEnv, entries: seq<WalkEntry>, table: seq<Record>): (r: IngestResult)
    ensures r.reply.Err? <==> !env.connectOk || !env.createOk
    ensures !env.connectOk ==> r == IngestResult(Err(ConnectFailed), table)
    ensures env.connectOk && !env.createOk ==> r == IngestResult(Err(CreateFailed), StartRows(env, table))
    ensures env.connectOk && !env.dropOk ==> |table| <= |r.rows| && r.rows[..|table|] == table
  {
    if !env.connectOk then IngestResult(Err(ConnectFailed), table)
    else
      var start := StartRows(env, table);
      if !env.createOk then IngestResult(Err(CreateFailed), start)
      else
        match Walk(Steps(env, entries), start)
        case Walking(rows) => IngestResult(Completed, rows)
        case Aborted(rows) => IngestResult(Panicked, rows)
  }

  /**
   * Without a panicking file the build completes, and the rows are the
   * start rows followed by the records of exactly the files whose every step
   * succeeded, in walk order.
   */
  lemma CompletedRunInsertsEveryGoodFile(env: IngestEnv, entries: seq<WalkEntry>, table: seq<Record>)
    requires env.connectOk && env.createOk
    requires forall i :: 0 <= i < |entries| ==> !FileStep(env, entries[i]).Abort?
    ensures IngestRun(env, entries, table) == IngestResult(Completed, StartRows(env, table) + Inserted(Steps(env, entries)))
  {
    WalkCompletes(Steps(env, entries), StartRows(env, table));
  }

  /** One more step of the walk continues from where the prefix before it left off. */
  lemma WalkStep(steps: seq<Step>, i: nat, start: seq<Record>, rows: seq<Record>)
    requires i < |steps| && Walk(steps[..i], start) == Walking(rows)
    ensures Walk(steps[..i + 1], start) == Continue(rows, steps[i])
  {
    assert steps[..i + 1][..i] == steps[..i];
  }

  /** Once a prefix of the walk has aborted, the steps after it change nothing. */
  lemma AbortEndsWalk(steps: seq<Step>, i: nat, start: seq<Record>)
    requires i < |steps| && Walk(steps[..i + 1], start).Aborted?
    ensures Walk(steps, start) == Walk(steps[..i + 1], start)
  {
    SplitAt(steps, i + 1);
    WalkAppend(steps[..i + 1], steps[i + 1..], start);
  }

  /** The build itself: the statements before the walk, then the `for` loop with its `continue`s. */
  method ParseDataCreateDatabase(env: IngestEnv, entries: seq<WalkEntry>, table: seq<Record>)
    returns (reply: Reply, rows: seq<Record>)
    ensures IngestResult(reply, rows) == IngestRun(env, entries, table)
  {
    if !env.connectOk {
      return Err(ConnectFailed), table;
    }
    rows := StartRows(env, table);
    if !env.createOk {
      return Err(CreateFailed), rows;
    }
    ghost var steps := Steps(env, entries);
    ghost var start := rows;
    for i := 0 to |entries|
      invariant Walk(steps[..i], start) == Walking(rows)
    {
      var step := IngestFile(env, entries[i]);
      WalkStep(steps, i, start, rows);
      if step.Abort? {
        AbortEndsWalk(steps, i, start);
        return Panicked, rows;
      }
      if step.Stored? {
        rows := rows + [step.rec];
      }
    }
    assert steps[..|entries|] == steps;
    reply := Completed;
  }

  // ---------------------------------------------------------------------
  // The empty-projection panic, and the step as evidently intended
  // ---------------------------------------------------------------------

  /**
   * As written: a raster that opens but reports an empty projection (a file
   * without a CRS) panics, so no file after it in walk order is indexed.
   */
  lemma EmptyProjectionAbortsWalk(env: IngestEnv, entries: seq<WalkEntry>, table: seq<Record>, k: nat)
    requires env.connectOk && env.createOk && k < |entries|
    requires entries[k].relative.Some? && env.open(entries[k].relative.value).Some?
    requires env.open(entries[k].relative.value).value.projection == ""
    requires forall i :: 0 <= i < k ==> !FileStep(env, entries[i]).Abort?
    ensures IngestRun(env, entries, table) ==
      IngestResult(Panicked, StartRows(env, table) + Inserted(Steps(env, entries)[..k]))
  {
    EmptyProjectionIsOutOfBounds();
    WalkStopsAtFirstAbort(Steps(env, entries), StartRows(env, table), k);
  }

  /** The step with the slice guarded: a code piece too short for `[1, len - 3)` skips the file like any other bad EPSG text. */
  function FileStepCorrected(env: IngestEnv, entry: WalkEntry): (r: Step)
    ensures !r.Abort?
    ensures FileStep(env, entry).Abort? ==> r == Skipped(EpsgNotAnInteger)
    ensures !FileStep(env, entry).Abort? ==> r == FileStep(env, entry)
  {
    var s := FileStep(env, entry);
    if s.Abort? then Skipped(EpsgNotAnInteger) else s
  }

  function StepsCorrected(env: IngestEnv, entries: seq<WalkEntry>): (r: seq<Step>)
    ensures |r| == |entries|
    ensures forall i :: 0 <= i < |entries| ==> r[i] == FileStepCorrected(env, entries[i])
  {
    seq(|entries|, i requires 0 <= i < |entries| => FileStepCorrected(env, entries[i]))
  }

  /**
   * With the guard, one bad file never ends the walk: every file whose every
   * step succeeds is indexed, in walk order, whatever the other files hold.
   */
  lemma CorrectedWalkNeverAborts(env: IngestEnv, entries: seq<WalkEntry>, rows: seq<Record>)
    ensures Walk(StepsCorrected(env, entries), rows) == Walking(rows + Inserted(StepsCorrected(env, entries)))
    ensures Inserted(StepsCorrected(env, entries)) == Inserted(Steps(env, entries))
  {
    WalkCompletes(StepsCorrected(env, entries), rows);
    InsertedIgnoresAborts(Steps(env, entries), StepsCorrected(env, entries));
  }

  /** Two outcome lists that agree on every stored record list the same records. */
  lemma {:induction false} InsertedIgnoresAborts(a: seq<Step>, b: seq<Step>)
    requires |a| == |b|
    requires forall i :: 0 <= i < |a| ==> (a[i].Stored? <==> b[i].Stored?) && (a[i].Stored? ==> a[i].rec == b[i].rec)
    ensures Inserted(a) == Inserted(b)
  {
    if |a| > 0 {
      InsertedIgnoresAborts(a[1..], b[1..]);
    }
  }
}

=== FILE: lookup.dfy ===
/**
 * The lookup of one point (`lookup_coordinats`): an early-return ladder over
 * the pool, the index query, the raster and its CRS, ending in a one-pixel
 * read. Every external step is an oracle in `LookupEnv` or `Dataset`.
 */
module Lookup {
  import opened Wrappers
  import opened Text
  import opened Epsg
  import opened Model

  /**
   * The world one lookup sees: whether the pool hands out a connection, what
   * the containment query returns for a point (called as (lon, lat), rows
   * ordered by resolution, `None` when the query fails), what opening a
   * path gives, and whether EPSG:4326 can be built.
   */
  datatype LookupEnv = LookupEnv(
    poolOk: bool,
    query: (real, real) -> Option<seq<Row>>,
    open: string -> Option<Dataset>,
    wgs84Ok: bool)

  /** A lookup answers, or panics on the EPSG slice. */
  datatype LookupOutcome = Answered(result: CoordinateResult) | Panicked

  /** The part of the ladder after the index query: sample the raster at `path`. */
  function SampleRaster(env: LookupEnv, path: string, lat: real, lon: real): (o: LookupOutcome)
    ensures o.Answered? ==> o.result.latitude == lat && o.result.longitude == lon
    ensures o.Answered? && o.result.error.Some? ==>
      o.result.elevation == 0 && o.result.error == Some(InternalServerErrorAt(lat, lon))
    ensures o.Answered? && o.result.error.None? ==>
      && env.open(path).Some? && env.open(path).value.band1Ok
      && exists nx, ny :: env.open(path).value.readAt(nx, ny) == Some(o.result.elevation)
    ensures o.Panicked? <==>
      && env.open(path).Some? && env.wgs84Ok
      && var ds := env.open(path).value;
      && ds.esriRefOk && ds.fromWgs84.Some? && ds.geoTransform.Some?
      && ExtractEpsg(ds.projection) == Failure(SliceOutOfBounds)
  {
    var fail := Answered(ErrorResult(lat, lon, InternalServerErrorAt(lat, lon)));
    match env.open(path)
    case None => fail
    case Some(ds) =>
      if !env.wgs84Ok || !ds.esriRefOk then fail
      else
        match ds.fromWgs84
        case None => fail
        case Some(t) =>
          if ds.geoTransform.None? then fail
          else
            match ExtractEpsg(ds.projection)
            case Failure(SliceOutOfBounds) => Panicked
            case Failure(NotAnInteger) => fail
            case Success(epsg) =>
              // x_coord = [lon], y_coord = [lat], exchanged for EPSG:25832 before the transform only
              var (x, y) := Orient(epsg, lon, lat);
              match t(x, y)
              case None => fail
              case Some((nx, ny)) =>
                if !ds.band1Ok then fail
                else
                  match ds.readAt(nx, ny)
                  case None => fail
                  case Some(v) => Answered(CoordinateResult(lat, lon, v, None))
  }

  /** The whole ladder for one point. */
  function Lookup(env: LookupEnv, lat: real, lon: real): (o: LookupOutcome)
    ensures o.Answered? ==> o.result.latitude == lat && o.result.longitude == lon
    ensures o.Answered? && o.result.error.Some? ==> o.result.elevation == 0
    ensures o.Answered? && o.result.error.None? ==> 0 <= o.result.elevation < 256
    ensures !env.poolOk ==> o == Answered(ErrorResult(lat, lon, InternalServerError))
    ensures env.poolOk && (env.query(lon, lat).None? || |env.query(lon, lat).value| == 0) ==>
      o == Answered(ErrorResult(lat, lon, NoSuchCoordinate(lat, lon)))
    ensures env.poolOk && env.query(lon, lat).Some? && |env.query(lon, lat).value| > 0 ==>
      o == SampleRaster(env, env.query(lon, lat).value[0].path, lat, lon)
  {
    if !env.poolOk then Answered(ErrorResult(lat, lon, InternalServerError))
    else
      match env.query(lon, lat)
      case None => Answered(ErrorResult(lat, lon, NoSuchCoordinate(lat, lon)))
      case Some(rows) =>
        if |rows| == 0 then Answered(ErrorResult(lat, lon, NoSuchCoordinate(lat, lon)))
        else SampleRaster(env, rows[0].path, lat, lon)
  }

  /** The store's promise: rows come highest resolution first. */
  predicate ByResolutionDescending(rows: seq<Row>) {
    forall i, j :: 0 <= i < j < |rows| ==> rows[i].resolution >= rows[j].resolution
  }

  /**
   * Where footprints overlap, the raster sampled is one of highest
   * resolution among those containing the point.
   */
  lemma HighestResolutionWins(env: LookupEnv, lat: real, lon: real)
    requires env.poolOk && env.query(lon, lat).Some?
    requires |env.query(lon, lat).value| > 0 && ByResolutionDescending(env.query(lon, lat).value)
    ensures var rows := env.query(lon, lat).value;
      exists k :: 0 <= k < |rows|
        && (forall j :: 0 <= j < |rows| ==> rows[j].resolution <= rows[k].resolution)
        && Lookup(env, lat, lon) == SampleRaster(env, rows[k].path, lat, lon)
  {
    var rows := env.query(lon, lat).value;
    assert Lookup(env, lat, lon) == SampleRaster(env, rows[0].path, lat, lon);
    assert forall j :: 0 <= j < |rows| ==> rows[j].resolution <= rows[0].resolution by {
      forall j | 0 <= j < |rows| ensures rows[j].resolution <= rows[0].resolution {
        if j > 0 { assert rows[0].resolution >= rows[j].resolution; }
      }
    }
  }

  /** A point answered without error went through every step of the ladder. */
  lemma SuccessNeedsEveryStep(env: LookupEnv, lat: real, lon: real)
    requires Lookup(env, lat, lon).Answered? && Lookup(env, lat, lon).result.error.None?
    ensures env.poolOk && env.wgs84Ok
    ensures env.query(lon, lat).Some? && |env.query(lon, lat).value| > 0
    ensures var ds := env.open(env.query(lon, lat).value[0].path);
      && ds.Some? && ds.value.esriRefOk && ds.value.fromWgs84.Some? && ds.value.geoTransform.Some?
      && ExtractEpsg(ds.value.projection).Success? && ds.value.band1Ok
    ensures var ds := env.open(env.query(lon, lat).value[0].path).value;
      var swapped := ExtractEpsg(ds.projection).value == Etrs89Utm32;
      var native := ds.fromWgs84.value(if swapped then lat else lon, if swapped then lon else lat);
      native.Some? && ds.readAt(native.value.0, native.value.1) == Some(Lookup(env, lat, lon).result.elevation)
  {
    var path := env.query(lon, lat).value[0].path;
    assert Lookup(env, lat, lon) == SampleRaster(env, path, lat, lon);
    var ds := env.open(path).value;
    OrientSpec(ExtractEpsg(ds.projection).value, lon, lat);
  }

  /**
   * At lookup the EPSG:25832 exchange happens before the transform only: the
   * transform receives (lat, lon) for 25832 and (lon, lat) otherwise, and its
   * output is used as (x, y) without a second exchange. A point the
   * transform rejects answers "Internal Server Error {lat} {lon}.".
   */
  lemma SwapBeforeTransformOnly(env: LookupEnv, path: string, lat: real, lon: real, ds: Dataset, epsg: int)
    requires env.open(path) == Some(ds) && env.wgs84Ok && ds.esriRefOk && ds.band1Ok
    requires ds.fromWgs84.Some? && ds.geoTransform.Some? && ExtractEpsg(ds.projection) == Success(epsg)
    ensures var fail := Answered(ErrorResult(lat, lon, InternalServerErrorAt(lat, lon)));
      SampleRaster(env, path, lat, lon) ==
        match ds.fromWgs84.value(if epsg == Etrs89Utm32 then lat else lon, if epsg == Etrs89Utm32 then lon else lat)
        case None => fail
        case Some(native) =>
          match ds.readAt(native.0, native.1)
          case Some(v) => Answered(CoordinateResult(lat, lon, v, None))
          case None => fail
  {
    OrientSpec(epsg, lon, lat);
  }
}

=== FILE: model.dfy ===
/**
 * The values the service passes around: the per-point answer, its error
 * texts, the index rows, and the raster handle as the model sees it (every
 * GDAL call it makes, reduced to its outcome).
 */
module Model {
  import opened Wrappers
  import opened Footprint

  /** One sampled pixel of band 1, read as `u8`. */
  type Byte = b: int | 0 <= b < 256

  /** The error texts a `CoordinateResult` can carry; `Render` spells them out. */
  datatype ErrorMsg =
    | InternalServerError
    | NoSuchCoordinate(lat: real, lon: real)
    | InternalServerErrorAt(lat: real, lon: real)
    | LocationsRequired
    | BadParameterFormat(segment: string)

  /** The text of an error, given Rust's `{}` formatting of an `f64`. */
  function Render(e: ErrorMsg, fmt: real -> string): string {
    match e
    case InternalServerError => "Internal Server Error"
    case NoSuchCoordinate(lat, lon) => "No such coordinate " + fmt(lat) + " " + fmt(lon) + "."
    case InternalServerErrorAt(lat, lon) => "Internal Server Error " + fmt(lat) + " " + fmt(lon) + "."
    case LocationsRequired => "locations is a required parameter"
    case BadParameterFormat(segment) => "Bad parameter format " + segment + "."
  }

  /**
   * A client can tell the kind of error from its text: different kinds never
   * render alike, and a bad-format text names exactly one segment.
   */
  lemma ErrorTextsDistinguishKinds(e1: ErrorMsg, e2: ErrorMsg, fmt: real -> string)
    requires Render(e1, fmt) == Render(e2, fmt)
    ensures e1.InternalServerError? <==> e2.InternalServerError?
    ensures e1.NoSuchCoordinate? <==> e2.NoSuchCoordinate?
    ensures e1.InternalServerErrorAt? <==> e2.InternalServerErrorAt?
    ensures e1.LocationsRequired? <==> e2.LocationsRequired?
    ensures e1.BadParameterFormat? && e2.BadParameterFormat? ==> e1 == e2
  {
    var t := Render(e1, fmt);
    assert t[0] == Render(e2, fmt)[0];
    if e1.InternalServerError? || e1.InternalServerErrorAt? {
      assert |Render(InternalServerError, fmt)| == 21;
      assert e1.InternalServerErrorAt? ==> |t| >= 24;
      assert e2.InternalServerErrorAt? ==> |t| >= 24;
    }
    if e1.BadParameterFormat? && e2.BadParameterFormat? {
      var prefix := "Bad parameter format ";
      assert t == prefix + e1.segment + ".";
      assert t[|prefix|..|t| - 1] == e1.segment;
      assert Render(e2, fmt)[|prefix|..|t| - 1] == e2.segment;
    }
  }

  /** The answer for one point. */
  datatype CoordinateResult = CoordinateResult(latitude: real, longitude: real, elevation: int, error: Option<ErrorMsg>)

  /** The answer every error path builds: the given coordinates, elevation 0, the error. */
  function ErrorResult(lat: real, lon: real, e: ErrorMsg): CoordinateResult {
    CoordinateResult(lat, lon, 0, Some(e))
  }

  /** A point as the POST body and the GET parser deliver it. */
  datatype Location = Location(latitude: real, longitude: real)

  /** A row of `geo_data` as the lookup query returns it. */
  datatype Row = Row(path: string, resolution: int)

  /**
   * An opened raster: what GDAL reports about it and how each call on it
   * turns out. `toWgs84`/`fromWgs84` are the transforms `CoordTransform::new`
   * builds from and to EPSG:4326 (`None` when building fails); `readAt` is the
   * pixel-index computation and the 1x1 `read_as::<u8>` of band 1 at a native point.
   */
  datatype Dataset = Dataset(
    projection: string,
    width: nat,
    height: nat,
    geoTransform: Option<GeoTransform>,
    esriRefOk: bool,
    toWgs84: Option<Transform>,
    fromWgs84: Option<Transform>,
    band1Ok: bool,
    readAt: (real, real) -> Option<Byte>)
}

=== FILE: text.dfy ===
/**
 * The string primitives the service relies on: `str::split` on a literal
 * separator and `str::parse::<i32>`. Strings are sequences of characters.
 * The separators split on (`EPSG",`, `,` and `|`) are ASCII, and UTF-8
 * never places an ASCII byte inside a multi-byte character, so splitting
 * characters and splitting bytes agree even on non-ASCII query text. Byte
 * positions matter only for the EPSG slice (see "Left out" in the README).
 */
module Text {
  import opened Wrappers

  const I32Min: int := -0x8000_0000
  const I32Max: int := 0x7fff_ffff

  // ---------------------------------------------------------------------
  // Splitting on a separator
  // ---------------------------------------------------------------------

  /** `sep` occurs in `s` starting at index `i`. */
  predicate OccursAt(s: string, sep: string, i: nat) {
    i + |sep| <= |s| && s[i..i + |sep|] == sep
  }

  /** An occurrence inside a slice of `s` is an occurrence in `s`, shifted by the cut. */
  lemma OccursInSlice(s: string, sep: string, lo: nat, hi: nat, j: nat)
    requires lo <= hi <= |s|
    ensures OccursAt(s[lo..hi], sep, j) ==> OccursAt(s, sep, lo + j) && lo + j + |sep| <= hi
  {
    if OccursAt(s[lo..hi], sep, j) {
      var piece := s[lo..hi];
      forall t | 0 <= t < |sep| ensures s[lo + j + t] == sep[t] {
        assert piece[j..j + |sep|][t] == piece[j + t];
      }
      assert s[lo + j..lo + j + |sep|] == sep;
    }
  }

  /** An occurrence starts with the separator's first character. */
  lemma OccurrenceStartsWithFirst(s: string, sep: string, j: nat)
    requires |sep| > 0
    ensures OccursAt(s, sep, j) ==> s[j] == sep[0]
  {
    if OccursAt(s, sep, j) {
      assert s[j..j + |sep|][0] == s[j];
    }
  }

  /** An occurrence in `s` at or after a cut is an occurrence in the suffix from the cut. */
  lemma OccurrenceInSuffix(s: string, sep: string, n: nat, j: nat)
    requires n <= j && n <= |s|
    ensures OccursAt(s, sep, j) ==> OccursAt(s[n..], sep, j - n)
  {
    if OccursAt(s, sep, j) {
      assert s[n..][j - n..j - n + |sep|] == s[j..j + |sep|];
    }
  }

  /** The index of the leftmost occurrence of `sep` in `s` at or after `from`, if any. */
  function FindFrom(s: string, sep: string, from: nat): (r: Option<nat>)
    ensures r.Some? ==> from <= r.value && OccursAt(s, sep, r.value)
    ensures r.Some? ==> forall j: nat :: from <= j < r.value ==> !OccursAt(s, sep, j)
    ensures r.None? ==> forall j: nat :: from <= j ==> !OccursAt(s, sep, j)
    decreases |s| - from
  {
    if from + |sep| > |s| then None
    else if OccursAt(s, sep, from) then Some(from)
    else FindFrom(s, sep, from + 1)
  }

  /** The pieces of `s[from..]` between the leftmost non-overlapping occurrences of `sep`. */
  function SplitFrom(s: string, sep: string, from: nat): (pieces: seq<string>)
    requires |sep| > 0 && from <= |s|
    ensures |pieces| > 0
    decreases |s| - from
  {
    match FindFrom(s, sep, from)
    case None => [s[from..]]
    case Some(i) => [s[from..i]] + SplitFrom(s, sep, i + |sep|)
  }

  /** Rust's `s.split(sep).collect()`. There is always at least one piece. */
  function Split(s: string, sep: string): (pieces: seq<string>)
    requires |sep| > 0
    ensures |pieces| > 0
  {
    SplitFrom(s, sep, 0)
  }

  /** The inverse of Split: the pieces glued back together with `sep`. */
  function Join(pieces: seq<string>, sep: string): string {
    if |pieces| == 0 then []
    else if |pieces| == 1 then pieces[0]
    else pieces[0] + sep + Join(pieces[1..], sep)
  }

  /** Splitting loses nothing: joining the pieces with the separator gives back the text. */
  lemma {:induction false} SplitFromJoin(s: string, sep: string, from: nat)
    requires |sep| > 0 && from <= |s|
    ensures Join(SplitFrom(s, sep, from), sep) == s[from..]
    decreases |s| - from
  {
    match FindFrom(s, sep, from)
    case None =>
    case Some(i) =>
      var rest := SplitFrom(s, sep, i + |sep|);
      SplitFromJoin(s, sep, i + |sep|);
      JoinCons(s[from..i], rest, sep);
      assert s[i..i + |sep|] == sep;
      SliceAround(s, from, i, i + |sep|);
  }

  /** Joining a first piece in front of a non-empty rest puts one separator between them. */
  lemma JoinCons(p: string, rest: seq<string>, sep: string)
    requires |rest| > 0
    ensures Join([p] + rest, sep) == p + sep + Join(rest, sep)
  {
    assert ([p] + rest)[1..] == rest;
  }

  /** A suffix cut at two points is the concatenation of its three parts. */
  lemma SliceAround(s: string, from: nat, i: nat, j: nat)
    requires from <= i <= j <= |s|
    ensures s[from..] == s[from..i] + s[i..j] + s[j..]
  {
    assert s[from..] == s[from..i] + s[i..];
    assert s[i..] == s[i..j] + s[j..];
  }

  lemma SplitJoin(s: string, sep: string)
    requires |sep| > 0
    ensures Join(Split(s, sep), sep) == s
  {
    SplitFromJoin(s, sep, 0);
  }

  /** No piece of a split contains the separator. */
  lemma {:induction false} SplitFromPiecesHaveNoSep(s: string, sep: string, from: nat)
    requires |sep| > 0 && from <= |s|
    ensures forall k: nat, j: nat :: k < |SplitFrom(s, sep, from)| ==> !OccursAt(SplitFrom(s, sep, from)[k], sep, j)
    decreases |s| - from
  {
    var pieces := SplitFrom(s, sep, from);
    match FindFrom(s, sep, from)
    case None =>
      assert s[from..] == s[from..|s|];
      forall j: nat ensures !OccursAt(s[from..|s|], sep, j) {
        OccursInSlice(s, sep, from, |s|, j);
      }
    case Some(i) =>
      SplitFromPiecesHaveNoSep(s, sep, i + |sep|);
      assert pieces[1..] == SplitFrom(s, sep, i + |sep|);
      forall j: nat ensures !OccursAt(s[from..i], sep, j) {
        OccursInSlice(s, sep, from, i, j);
      }
      assert forall k :: 0 < k < |pieces| ==> pieces[k] == pieces[1..][k - 1];
  }

  lemma SplitPiecesHaveNoSep(s: string, sep: string)
    requires |sep| > 0
    ensures forall k: nat, j: nat :: k < |Split(s, sep)| ==> !OccursAt(Split(s, sep)[k], sep, j)
  {
    SplitFromPiecesHaveNoSep(s, sep, 0);
  }

  /**
   * Where the last piece of `s[from..]` starts: just after the last
   * occurrence that the left-to-right scan finds, or at `from` when there is
   * none. No occurrence starts at or after it.
   */
  function LastStart(s: string, sep: string, from: nat): (r: nat)
    requires |sep| > 0 && from <= |s|
    ensures from <= r <= |s|
    ensures forall j: nat :: r <= j ==> !OccursAt(s, sep, j)
    ensures r == from || (r >= from + |sep| && OccursAt(s, sep, r - |sep|))
    decreases |s| - from
  {
    match FindFrom(s, sep, from)
    case None => from
    case Some(i) => LastStart(s, sep, i + |sep|)
  }

  /** The last piece is the text from `LastStart` on. */
  lemma {:induction false} LastPieceFrom(s: string, sep: string, from: nat)
    requires |sep| > 0 && from <= |s|
    ensures Last(SplitFrom(s, sep, from)) == s[LastStart(s, sep, from)..]
    decreases |s| - from
  {
    match FindFrom(s, sep, from)
    case None =>
    case Some(i) =>
      LastPieceFrom(s, sep, i + |sep|);
      var rest := SplitFrom(s, sep, i + |sep|);
      assert SplitFrom(s, sep, from) == [s[from..i]] + rest;
      assert Last(SplitFrom(s, sep, from)) == Last(rest);
  }

  /**
   * The last piece of a split is the text after the last occurrence of the
   * separator: a suffix of `s` holding no occurrence, preceded either by
   * nothing (then it is `s` itself) or by the separator.
   */
  lemma LastPieceIsTail(s: string, sep: string)
    requires |sep| > 0
    ensures Last(Split(s, sep)) == s[LastStart(s, sep, 0)..]
    ensures forall j: nat :: !OccursAt(Last(Split(s, sep)), sep, j)
    ensures LastStart(s, sep, 0) == 0 || OccursAt(s, sep, LastStart(s, sep, 0) - |sep|)
  {
    LastPieceFrom(s, sep, 0);
    SplitPiecesHaveNoSep(s, sep);
  }

  /**
   * When `k` is an occurrence and no other occurrence starts after
   * `k - |sep|`, the last piece starts right after the one at `k`.
   */
  lemma LastStartAfter(s: string, sep: string, from: nat, k: nat)
    requires |sep| > 0 && from <= k && OccursAt(s, sep, k)
    requires forall j: nat :: k - |sep| < j && j != k ==> !OccursAt(s, sep, j)
    ensures LastStart(s, sep, from) == k + |sep|
  {
  }

  /** Text without the separator is a single piece, the whole text. */
  lemma SplitWithoutSep(s: string, sep: string)
    requires |sep| > 0
    requires forall j: nat :: !OccursAt(s, sep, j)
    ensures Split(s, sep) == [s]
  {
    assert s[0..] == s;
  }

  // ---------------------------------------------------------------------
  // Decimal integers
  // ---------------------------------------------------------------------

  predicate IsDigit(c: char) {
    '0' <= c <= '9'
  }

  predicate AllDigits(s: string) {
    forall i :: 0 <= i < |s| ==> IsDigit(s[i])
  }

  function DigitValue(c: char): nat
    requires IsDigit(c)
  {
    (c as int) - ('0' as int)
  }

  function DigitChar(d: nat): char
    requires d < 10
  {
    (('0' as int) + d) as char
  }

  /** The number a string of decimal digits spells, most significant first. */
  function DigitsValue(s: string): nat
    requires AllDigits(s)
  {
    if |s| == 0 then 0 else DigitsValue(s[..|s| - 1]) * 10 + DigitValue(s[|s| - 1])
  }

  /**
   * Rust's `str::parse::<i32>`: an optional `+` or `-`, then one or more
   * decimal digits whose value fits in 32 bits; anything else is an error.
   */
  function ParseI32(s: string): (r: Option<int>)
    ensures r.Some? ==> I32Min <= r.value <= I32Max
    ensures r.Some? ==> |s| > 0 && (IsDigit(s[0]) || s[0] == '+' || s[0] == '-')
    ensures r.Some? ==> forall i :: 0 < i < |s| ==> IsDigit(s[i])
  {
    if |s| == 0 then None
    else if s[0] == '+' || s[0] == '-' then ParseMagnitude(s[0] == '-', s[1..])
    else ParseMagnitude(false, s)
  }

  /** The digits after the sign: one or more, and the signed value within 32 bits. */
  function ParseMagnitude(negative: bool, digits: string): (r: Option<int>)
    ensures r.Some? ==> I32Min <= r.value <= I32Max && |digits| > 0 && AllDigits(digits)
  {
    if |digits| == 0 || !AllDigits(digits) then None
    else
      var magnitude: int := DigitsValue(digits);
      var v := if negative then -magnitude else magnitude;
      if I32Min <= v <= I32Max then Some(v) else None
  }

  /**
   * Every optional sign followed by one or more digits is accepted when its
   * value fits in 32 bits and refused otherwise; leading zeros are allowed.
   */
  lemma ParseSignedDigits(digits: string)
    requires |digits| > 0 && AllDigits(digits)
    ensures ParseI32(digits) == if DigitsValue(digits) <= I32Max then Some(DigitsValue(digits) as int) else None
    ensures ParseI32("+" + digits) == if DigitsValue(digits) <= I32Max then Some(DigitsValue(digits) as int) else None
    ensures ParseI32("-" + digits) == if DigitsValue(digits) <= -I32Min then Some(-(DigitsValue(digits) as int)) else None
  {
    SignedSpellings(digits);
    MagnitudeValue(false, digits);
    MagnitudeValue(true, digits);
  }

  /** A run of digits reads as its value, negated after a `-`, when that fits in 32 bits. */
  lemma MagnitudeValue(negative: bool, digits: string)
    requires |digits| > 0 && AllDigits(digits)
    ensures var v := if negative then -(DigitsValue(digits) as int) else DigitsValue(digits) as int;
      ParseMagnitude(negative, digits) == if I32Min <= v <= I32Max then Some(v) else None
  {
  }

  /** A leading `+` reads the digits after it as unsigned, a leading `-` as negative. */
  lemma SignedSpellings(digits: string)
    requires |digits| > 0 && AllDigits(digits)
    ensures ParseI32(digits) == ParseMagnitude(false, digits)
    ensures ParseI32("+" + digits) == ParseMagnitude(false, digits)
    ensures ParseI32("-" + digits) == ParseMagnitude(true, digits)
  {
    assert IsDigit(digits[0]);
    assert ("+" + digits)[1..] == digits;
    assert ("-" + digits)[1..] == digits;
  }

  /** The canonical decimal spelling of a natural number (the inverse of parsing). */
  function Decimal(n: nat): (s: string)
    ensures |s| > 0 && AllDigits(s)
    ensures DigitsValue(s) == n
  {
    if n < 10 then [DigitChar(n)]
    else
      var s := Decimal(n / 10) + [DigitChar(n % 10)];
      assert s[..|s| - 1] == Decimal(n / 10);
      s
  }

  /** Parsing the decimal spelling of a 32-bit value gives the value back, with or without a sign. */
  lemma ParseDecimal(n: nat)
    requires n <= I32Max
    ensures ParseI32(Decimal(n)) == Some(n)
    ensures ParseI32("+" + Decimal(n)) == Some(n)
    ensures ParseI32("-" + Decimal(n)) == Some(-(n as int))
  {
    var d := Decimal(n);
    assert ("+" + d)[1..] == d;
    assert ("-" + d)[1..] == d;
  }
}

=== FILE: wrappers.dfy ===
/** Option and Result, the failure-carrying values used throughout the model. */
module Wrappers {

  datatype Option<+T> = None | Some(value: T)

  datatype Result<+T, +E> = Success(value: T) | Failure(error: E)

  /** The last element of a non-empty sequence (Rust's `last()` on a non-empty Vec). */
  function Last<T>(s: seq<T>): T
    requires |s| > 0
  {
    s[|s| - 1]
  }
}
